=== FILE: README.md ===
# Freight quote card — Dafny model

A model of the logic behind a single-page freight quote generator. A carrier
fills in a form: client, pickup and delivery legs (UF, city, neighbourhood),
service date, total price, notes, and their own name, company and WhatsApp
contact. The page shows a live "quote card" built from these values and saves
it as a JPEG named after the client.

The model covers the pure logic of `src/App.tsx`:

- the input masks:
  - `formatCurrency`: digits only, read as cents, rendered as Brazilian reais;
  - `formatPhone`: the Brazilian `(DD) NNNNN-NNNN` mask, cut at 15 characters;
- the card's text helpers `formatDate` (ISO `YYYY-MM-DD` to `DD/MM/YYYY`) and
  `formatAddress`;
- the 13-field quote record and `handleChange`, written as a pure reducer over
  `(field, value)` events;
- the card's block composition and its price fallback;
- the download file name.

Modules, one per file:

| file | module | what it holds |
|---|---|---|
| `text.dfy` | `Text` | `\D` stripping, decimal digit strings, JavaScript `split` and its inverse `Join` |
| `currency.dfy` | `Currency` | the currency mask over integer cents, and the parser `ParseCurrency` that undoes it |
| `phone.dfy` | `Phone` | the two regex steps and the truncation of the phone mask, and the patterns it produces |
| `date.dfy` | `DateFormat` | `formatDate` with JavaScript's destructuring of missing parts as `undefined` |
| `address.dfy` | `Address` | `formatAddress` |
| `form.dfy` | `Form` | the record, `handleChange`, the initial state, replaying events, and the record invariant |
| `card.dfy` | `Card` | the card's blocks in order, the price fallback, and the download name |

The currency mask is modelled on integer cents:
`FormatCents(n) = "R$" + U+00A0 + grouped(n / 100) + "," + two digits`.
The integer part is grouped in threes with `.`. Its partner is `ParseCurrency`,
which accepts exactly the canonical renderings. The two are proved inverse in
both directions.

## Model

| member | source | states |
|---|---|---|
| Text.Digits | src/App.tsx:79 | `replace(/\D/g, "")` keeps only ASCII digits. The result is all digits, no longer than the input, and equal to the input when the input is all digits. |
| Text.DigitsConcat | src/App.tsx:79 | Stripping non-digits distributes over concatenation. |
| Text.DecimalValueConcat | src/App.tsx:81 | The number a digit string denotes, split at any point: value(a + b) = value(a) * 10^|b| + value(b). |
| Text.Decimal | src/App.tsx:81-84 | The decimal rendering of n is a canonical digit string (no leading zero) whose value is n. |
| Text.DecimalOfValue | src/App.tsx:81-84 | A canonical digit string is the rendering of its own value, so rendering is onto canonical strings. |
| Text.Padded | src/App.tsx:81-84 | The zero-padded rendering of n is exactly `width` digits and has value n. |
| Text.PaddedOfValue | src/App.tsx:81-84 | Any digit string of a given width is the padded rendering of its value. |
| Text.Split | src/App.tsx:97 | `split` gives one more piece than there are separators. No piece holds the separator or any character absent from the input. |
| Text.JoinSplit | src/App.tsx:97 | Joining the pieces of a split with the separator gives back the input. |
| Text.SplitJoin | src/App.tsx:97 | Splitting the join of separator-free pieces gives back the pieces. |
| Text.SplitNoSeparator | src/App.tsx:97 | A string without the separator splits into itself alone. |
| Text.Count | src/App.tsx:97 | The separator count is zero exactly when the separator does not occur. |
| Text.CountConcat | src/App.tsx:97 | Separator counts add over concatenation. |
| Currency.GroupedRoundTrip | src/App.tsx:81-84 | The dot-grouped integer part parses back to the number it renders. |
| Currency.GroupedCanonical | src/App.tsx:81-84 | Any string the group parser accepts is the grouped rendering of its value. |
| Currency.GroupedDigits | src/App.tsx:81-84 | Removing the group dots from a grouped number leaves exactly its plain decimal spelling, with no leading zero, which denotes the number. |
| Currency.FormatCentsRoundTrip | src/App.tsx:81-84 | A rendering of n cents parses back to n. Its digits, read as a number, are n again. |
| Currency.CurrencyCanonical | src/App.tsx:81-84 | Every string the parser accepts as n cents is the rendering of n: the parser has no other preimages. |
| Currency.FormatCurrencyMeaning | src/App.tsx:78-85 | The masked total parses as the cents denoted by the digits typed. Masking keeps the amount the digits denote. |
| Currency.CurrencyDependsOnAmount | src/App.tsx:78-85 | Two inputs mask to the same text exactly when their digits denote the same amount. |
| Currency.CurrencyIdempotent | src/App.tsx:78-85 | Masking an already masked value changes nothing. |
| Currency.CentsAppend | src/App.tsx:79-81 | Appending a digit to the input multiplies the amount by ten and adds that digit. |
| Currency.CurrencyKeystroke | src/App.tsx:78-85 | Typing digit k after a total showing n cents shows 10n + k cents. |
| Currency.CurrencyBackspace | src/App.tsx:78-85 | Deleting the last character of a total showing n cents shows n / 10 cents. |
| Currency.CurrencyZero | src/App.tsx:78-85 | An input with no non-zero digit, including the empty input, renders as zero reais with the no-break space. |
| Currency.CurrencyExample | src/App.tsx:78-85 | Typing `15000` shows one hundred and fifty reais, `R$ 150,00`. |
| Phone.Truncate | src/App.tsx:92 | `substring(0, n)` is the prefix of the string of length min(n, its length). |
| Phone.FormatPhone | src/App.tsx:87-93 | The mask is never longer than 15 characters. |
| Phone.PhoneDigits | src/App.tsx:87-93 | The digits of the mask are a prefix of the digits typed. All are kept up to 11 digits, 11 are kept for 12 to 15 digits, and 12 are kept from 16 digits on. |
| Phone.PhoneDependsOnDigits | src/App.tsx:88-89 | The mask depends only on the digits typed. |
| Phone.PhoneShape | src/App.tsx:90-92 | The shape of the mask by digit count. Up to 2 digits it is the digits. From 3 to 6 it is `(##) ` then digits. From 7 to 11 it is `(##) ` then digits then `-####`. From 12 on it is exactly 15 characters. |
| Phone.TenDigits | src/App.tsx:87-93 | Ten digits give the landline shape `(##) ####-####` and keep all digits. |
| Phone.ElevenDigits | src/App.tsx:87-93 | Eleven digits give the mobile shape `(##) #####-####` and keep all digits. |
| Phone.PhoneIdempotent | src/App.tsx:87-93 | With at most 11 digits, masking the mask changes nothing. |
| Phone.TwelveDigitsNotStable | src/App.tsx:87-93 | With exactly 12 digits, masking the mask again changes it: idempotence stops at 11 digits. |
| Phone.PhoneKeystroke | src/App.tsx:87-93 | With at most 10 digits, typing a digit after the mask gives the mask of the digits plus that digit. |
| DateFormat.JoinedDate | src/App.tsx:95-99 | Any `-`-separated text of three or more parts shows `part2/part1/part0`. Parts after the third are ignored. |
| DateFormat.IsoDate | src/App.tsx:95-99 | `y-m-d` shows as `d/m/y`. |
| DateFormat.MissingComponents | src/App.tsx:95-99 | With fewer than two `-`, each missing part shows as `undefined`. |
| DateFormat.EmptyDate | src/App.tsx:96 | The empty date shows as the empty string. |
| DateFormat.TwoSeparators | src/App.tsx:95-99 | Any non-empty input whose first three `-`-separated parts hold no `/` shows with exactly two `/`. |
| DateFormat.NoSlashInput | src/App.tsx:95-99 | In particular any non-empty input without `/` shows with exactly two `/`. |
| DateFormat.LaterPartDropped | src/App.tsx:97-98 | A fourth part is dropped whatever it holds: `y-m-d-rest` shows as `d/m/y`, with exactly two `/`. |
| DateFormat.DisplayRoundTrip | src/App.tsx:95-99 | The shown date splits on `/` back into day, month and year. |
| DateFormat.DateExample | src/App.tsx:95-99 | `2025-03-07` shows as `07/03/2025`. |
| Address.PlaceholderIffNoCity | src/App.tsx:128-131 | The line is the `Selecione a cidade...` prompt exactly when no city was chosen. |
| Address.Composition | src/App.tsx:130 | With a city the line is `cidade - uf`, plus `, bairro` exactly when a neighbourhood was typed. |
| Address.AddressExamples | src/App.tsx:128-131 | No city shows the prompt. `Campinas`/`SP` shows `Campinas - SP`, and with `Centro` it shows `Campinas - SP, Centro`. |
| Form.Put | src/App.tsx:105-109 | `{ ...prev, [name]: v }` sets the named field to v and leaves the other twelve unchanged. |
| Form.HandleChange | src/App.tsx:101-111 | The named field receives the currency mask of the value for the total, the phone mask for the contact, and the value itself otherwise. Every other field is unchanged. |
| Form.StoredValue | src/App.tsx:101-111 | The stored total parses as the cents typed. The stored contact is at most 15 characters, and its digits are a prefix of those typed. Other fields hold exactly what was typed. |
| Form.UfChangeKeepsCity | src/App.tsx:101-111 | Changing a leg's UF stores it and leaves that leg's city in place. |
| Form.LastWriteWins | src/App.tsx:101-111 | A second change to a field overrides the first. |
| Form.DistinctFieldsCommute | src/App.tsx:101-111 | Changes to different fields commute. |
| Form.TotalKeystroke | src/App.tsx:104-105 | Typing digit k into a total showing n cents stores 10n + k cents. |
| Form.InitialValid | src/App.tsx:34-48 | The start-up record satisfies the invariant: the total is empty or well formed, and the contact is a phone mask. |
| Form.HandleChangeValid | src/App.tsx:101-111 | Every change preserves the invariant. |
| Form.ReplayValid | src/App.tsx:101-111 | Any sequence of changes preserves the invariant. |
| Form.ReachableContactLength | src/App.tsx:34-48 | In every state reachable from start-up, the contact has at most 15 characters. |
| Card.ClientBlockIff | src/App.tsx:230-235 | The client block is on the card exactly when a client name was given. |
| Card.NotesBlockIff | src/App.tsx:268-272 | The notes block is on the card exactly when notes were given. |
| Card.CardAt | src/App.tsx:230-298 | The kind of block at each position, given whether the client and notes blocks are present. |
| Card.CardOrder | src/App.tsx:230-298 | The card has 5 blocks plus the optional client and notes blocks, in fixed order, none twice. Pickup is followed by delivery and then the date; the total and footer come last. |
| Card.CardContent | src/App.tsx:230-298 | Every block shows its own part of the record: the addresses through `formatAddress`, the date through `formatDate`, and the footer's company, name and contact. |
| Card.PriceShown | src/App.tsx:282 | The price is the stored total when there is one, otherwise `R$ 0,00`. In a valid record a shown total is well formed. |
| Card.FallbackIsNotZeroRendering | src/App.tsx:282 | The fallback `R$ 0,00` and the mask's rendering of zero differ in exactly one character, the space after `R$`. |
| Card.DownloadNameParts | src/App.tsx:118 | The file name is `orcamento-` + label + `.jpg`. The label is the client name, or `frete` when there is none. |
| Card.DownloadNameInjective | src/App.tsx:118 | Two records give the same file name exactly when their labels agree. |
| Card.MariaQuote | src/App.tsx:101-111 | A quote for Maria from Campinas to Rio de Janeiro without notes, after typing `15000`, has six blocks: client, both legs, the date, then `R$ 150,00` as the total. |

## Left out

- The IBGE lookups for states and cities (src/App.tsx:56-76) are network I/O. A UF or city is whatever text the select reports. Changing a UF leaves that leg's city as it was, in the source and in the model (`Form.UfChangeKeepsCity`).
- Image export (src/App.tsx:113-126): `toJpeg`, the link click and the error alert are browser I/O. Only the file name is modelled.
- The clock (src/App.tsx:42) becomes the `today` parameter of `Form.Initial`.
- The card's date line (src/App.tsx:264) passes `formatDate`'s output through `new Date(...)` and `toLocaleDateString('pt-BR')`. Host date parsing is outside the model. `Card.ComposeCard` shows `formatDate`'s output itself. The model's `ServiceDate` text is therefore not the text on the real card, which is whatever the host makes of parsing `DD/MM/YYYY` as a date and printing it in pt-BR.
- Currency.FormatCurrencyMeaning: `Number(digits) / 100` is double arithmetic. The model uses exact integer cents. The two agree for amounts below 10^15 cents, that is at most 15 digits once leading zeros are dropped: there `Number` is exact and the one rounding of `/ 100` reads back as the intended amount. `Number(...)` stays exact up to 2^53, about 9×10^15 cents, but closer to that bound the rounding of `/ 100` can change the cents. From 2^53 on `Number(...)` rounds as well, so even round amounts come out wrong (5×10^22 cents does not show as 500.000.000.000.000.000.000,00 reais). Beyond the double range, about 309 digits, `Number` gives `Infinity` and the source prints an infinity sign instead of an amount.
- Currency.FormatCents: `toLocaleString` is the host's Intl implementation. The model fixes pt-BR as the `R$` symbol, a no-break space, `.` grouping from 1.000 on, `,` and two decimals.
- DateFormat.TwoSeparators: a `/` in one of the first three `-`-separated parts gives more than two `/`. The property is stated for inputs whose first three parts are free of `/`, which covers what the date input provides. A `/` after the third part is dropped with that part (`DateFormat.LaterPartDropped`).
- Card.ComposeCard: the route container is modelled as two blocks, pickup and delivery. A quote without client or notes therefore has five blocks, and one with both has seven.
- The `maxLength={15}` attribute of the contact input, the disabled city selects, all JSX layout, CSS, icons and labels are presentation. So are the quotation marks the card puts around the notes (src/App.tsx:270): the model's `Notes` block holds the bare text.

=== FILE: address.dfy ===
/** The card's address line for a pickup or delivery leg (`formatAddress`):
    `<cidade> - <UF>`, followed by `, <bairro>` when a neighbourhood was typed,
    or a prompt when no city has been chosen yet. */
module Address {

  /** Shown in place of an address while the leg has no city. */
  const Placeholder: string := "Selecione a cidade..."

  function FormatAddress(uf: string, cidade: string, bairro: string): string {
    if cidade == [] then Placeholder
    else cidade + " - " + uf + (if bairro != [] then ", " + bairro else "")
  }

  lemma PlaceholderHasNoDash()
    ensures '-' !in Placeholder
  {
    forall i | 0 <= i < |Placeholder| ensures Placeholder[i] != '-' {
    }
  }

  /** The prompt is shown exactly when the city is missing: no city, UF and
      neighbourhood compose to the prompt text, since a composed address
      always holds the ` - ` between city and UF. */
  lemma PlaceholderIffNoCity(uf: string, cidade: string, bairro: string)
    ensures FormatAddress(uf, cidade, bairro) == Placeholder <==> cidade == []
  {
    if cidade != [] {
      var r := FormatAddress(uf, cidade, bairro);
      assert r[|cidade| + 1] == '-';
      PlaceholderHasNoDash();
    }
  }

  /** With a city the line is `cidade - uf`, and `, bairro` is appended
      exactly when the neighbourhood is non-empty. */
  lemma Composition(uf: string, cidade: string, bairro: string)
    requires cidade != []
    ensures var r := FormatAddress(uf, cidade, bairro);
      && (r == cidade + " - " + uf <==> bairro == [])
      && (r == cidade + " - " + uf + ", " + bairro <==> bairro != [])
  {
    var r := FormatAddress(uf, cidade, bairro);
    var base := cidade + " - " + uf;
    if bairro != [] {
      assert r == base + (", " + bairro);
      assert |r| > |base|;
    } else {
      assert r == base + [];
      assert |base + ", " + bairro| > |r|;
    }
  }

  /** Three sample address lines: no city, a city, and a city with a
      neighbourhood. */
  lemma AddressExamples()
    ensures FormatAddress("SP", "", "Centro") == Placeholder
    ensures FormatAddress("SP", "Campinas", "") == "Campinas - SP"
    ensures FormatAddress("SP", "Campinas", "Centro") == "Campinas - SP, Centro"
  {
    assert "Campinas" + " - " + "SP" + [] == "Campinas - SP";
    assert "Campinas" + " - " + "SP" + (", " + "Centro") == "Campinas - SP, Centro";
  }
}

=== FILE: card.dfy ===
/** The quote card derived from the record: the blocks it shows, in the order
    it shows them, the price fallback, and the name of the downloaded image. */
module Card {
  import opened Currency
  import opened DateFormat
  import opened Address
  import opened Form

  /** One block of the card. The route container is modelled as its two legs. */
  datatype Block =
    | Client(nome: string)
    | Pickup(address: string)
    | Delivery(address: string)
    | ServiceDate(text: string)
    | Notes(text: string)
    | Total(text: string)
    | Footer(empresa: string, nome: string, contato: string)

  /** A block's place in the card's fixed top-to-bottom order. */
  function Rank(b: Block): nat {
    match b
    case Client(_) => 0
    case Pickup(_) => 1
    case Delivery(_) => 2
    case ServiceDate(_) => 3
    case Notes(_) => 4
    case Total(_) => 5
    case Footer(_, _, _) => 6
  }

  /** The literal shown for an empty total. It uses an ordinary space after
      `R$`, unlike the currency mask's no-break space. */
  const FallbackPrice: string := "R$ 0,00"

  function PriceText(d: Orcamento): string {
    if d.valorTotal != [] then d.valorTotal else FallbackPrice
  }

  function ComposeCard(d: Orcamento): seq<Block> {
    (if d.clienteNome != [] then [Client(d.clienteNome)] else [])
    + [ Pickup(FormatAddress(d.origemUF, d.origemCidade, d.origemBairro)),
        Delivery(FormatAddress(d.destinoUF, d.destinoCidade, d.destinoBairro)),
        ServiceDate(FormatDate(d.dataServico)) ]
    + (if d.observacoes != [] then [Notes(d.observacoes)] else [])
    + [ Total(PriceText(d)), Footer(d.suaEmpresa, d.seuNome, d.seuContato) ]
  }

  /** The block shows the part of the record it is meant to show. */
  predicate Shows(d: Orcamento, b: Block) {
    match b
    case Client(n) => n == d.clienteNome
    case Pickup(a) => a == FormatAddress(d.origemUF, d.origemCidade, d.origemBairro)
    case Delivery(a) => a == FormatAddress(d.destinoUF, d.destinoCidade, d.destinoBairro)
    case ServiceDate(t) => t == FormatDate(d.dataServico)
    case Notes(t) => t == d.observacoes
    case Total(t) => t == PriceText(d)
    case Footer(e, n, c) => e == d.suaEmpresa && n == d.seuNome && c == d.seuContato
  }

  predicate HasClient(card: seq<Block>) {
    exists i :: 0 <= i < |card| && card[i].Client?
  }

  predicate HasNotes(card: seq<Block>) {
    exists i :: 0 <= i < |card| && card[i].Notes?
  }

  /** Positions of the card: with `c` client blocks and `n` notes blocks
      present, the block at position `i`. */
  lemma CardAt(d: Orcamento, i: nat)
    requires i < |ComposeCard(d)|
    ensures var c, n := ClientCount(d), NotesCount(d);
      Rank(ComposeCard(d)[i]) == RankAt(i, c, n)
  {
  }

  function ClientCount(d: Orcamento): nat {
    if d.clienteNome != [] then 1 else 0
  }

  function NotesCount(d: Orcamento): nat {
    if d.observacoes != [] then 1 else 0
  }

  /** The rank of the block at position `i` when `c` client blocks and `n`
      notes blocks are present. */
  function RankAt(i: nat, c: nat, n: nat): nat {
    if i < c then 0
    else if i - c < 3 then i - c + 1
    else if i - c - 3 < n then 4
    else i - c - 3 - n + 5
  }

  /** The client block appears exactly when a client name was given. */
  lemma ClientBlockIff(d: Orcamento)
    ensures HasClient(ComposeCard(d)) <==> d.clienteNome != []
  {
    var card := ComposeCard(d);
    if HasClient(card) {
      var i :| 0 <= i < |card| && card[i].Client?;
      CardAt(d, i);
    }
    if d.clienteNome != [] {
      assert card[0].Client?;
    }
  }

  /** The notes block appears exactly when notes were given. */
  lemma NotesBlockIff(d: Orcamento)
    ensures HasNotes(ComposeCard(d)) <==> d.observacoes != []
  {
    var card := ComposeCard(d);
    if HasNotes(card) {
      var i :| 0 <= i < |card| && card[i].Notes?;
      CardAt(d, i);
    }
    if d.observacoes != [] {
      assert card[ClientCount(d) + 3].Notes?;
    }
  }

  /** Blocks come in the card's fixed order, none twice, the pickup leg right
      before the delivery leg; the route, the date, the total and the footer
      are always there. */
  lemma CardOrder(d: Orcamento)
    ensures var card := ComposeCard(d);
      && |card| == 5 + ClientCount(d) + NotesCount(d)
      && (forall i, j :: 0 <= i < j < |card| ==> Rank(card[i]) < Rank(card[j]))
      && card[ClientCount(d)].Pickup? && card[ClientCount(d) + 1].Delivery?
      && card[ClientCount(d) + 2].ServiceDate?
      && card[|card| - 2].Total? && card[|card| - 1].Footer?
  {
    var card := ComposeCard(d);
    var c, n := ClientCount(d), NotesCount(d);
    forall i, j | 0 <= i < j < |card| ensures Rank(card[i]) < Rank(card[j]) {
      CardAt(d, i);
      CardAt(d, j);
    }
  }

  /** Every block shows its own part of the record. */
  lemma CardContent(d: Orcamento)
    ensures var card := ComposeCard(d); forall i :: 0 <= i < |card| ==> Shows(d, card[i])
  {
  }

  /** The price shown is the stored total when there is one, the fallback
      literal otherwise; in a valid record it is therefore either a
      well-formed currency string or that literal. */
  lemma PriceShown(d: Orcamento)
    requires Valid(d)
    ensures d.valorTotal != [] ==> PriceText(d) == d.valorTotal && WellFormedCurrency(PriceText(d))
    ensures d.valorTotal == [] ==> PriceText(d) == FallbackPrice
  {
  }

  /** The fallback and the currency mask's rendering of zero differ in exactly
      one character, the space after the symbol. */
  lemma FallbackIsNotZeroRendering()
    ensures |FallbackPrice| == |ZeroCurrency|
    ensures FallbackPrice != ZeroCurrency
    ensures FallbackPrice[2] == ' ' && ZeroCurrency[2] == SymbolSpace
    ensures forall i :: 0 <= i < |FallbackPrice| && i != 2 ==> FallbackPrice[i] == ZeroCurrency[i]
  {
    assert ZeroCurrency == ['R', '$', SymbolSpace, '0', ',', '0', '0'];
    assert FallbackPrice == ['R', '$', ' ', '0', ',', '0', '0'];
  }

  // ---------------------------------------------------------------------------
  // Download name

  const NamePrefix: string := "orcamento-"
  const NameSuffix: string := ".jpg"

  /** The client name, or `frete` when there is none. */
  function NameLabel(d: Orcamento): string {
    if d.clienteNome != [] then d.clienteNome else "frete"
  }

  function DownloadName(d: Orcamento): string {
    NamePrefix + NameLabel(d) + NameSuffix
  }

  /** The file name is `orcamento-<label>.jpg`, and the label between prefix
      and extension is the client name when there is one, `frete` otherwise. */
  lemma DownloadNameParts(d: Orcamento)
    ensures var r := DownloadName(d);
      && |r| == |NamePrefix| + |NameLabel(d)| + |NameSuffix|
      && r[..|NamePrefix|] == NamePrefix
      && r[|r| - |NameSuffix|..] == NameSuffix
      && r[|NamePrefix|..|r| - |NameSuffix|] == (if d.clienteNome != [] then d.clienteNome else "frete")
  {
  }

  /** Different client names give different file names; a client called
      `frete` gets the same file name as no client at all. */
  lemma DownloadNameInjective(a: Orcamento, b: Orcamento)
    ensures DownloadName(a) == DownloadName(b) <==> NameLabel(a) == NameLabel(b)
  {
    if DownloadName(a) == DownloadName(b) {
      DownloadNameParts(a);
      DownloadNameParts(b);
    }
  }

  // ---------------------------------------------------------------------------
  // End to end

  /** A quote for Maria from Campinas to Rio de Janeiro, without notes, with
      `15000` typed into the total: six blocks, opening with the client and
      showing one hundred and fifty reais. */
  lemma MariaQuote(d: Orcamento)
    requires d.clienteNome == "Maria" && d.observacoes == []
    requires d.origemUF == "SP" && d.origemCidade == "Campinas" && d.origemBairro == []
    requires d.destinoUF == "RJ" && d.destinoCidade == "Rio de Janeiro" && d.destinoBairro == []
    ensures var card := ComposeCard(HandleChange(d, ValorTotal, "15000"));
      && |card| == 6
      && card[0] == Client("Maria")
      && card[1] == Pickup("Campinas - SP")
      && card[2] == Delivery("Rio de Janeiro - RJ")
      && card[4] == Total(Prefix + "150,00")
  {
    var e := d.(valorTotal := Prefix + "150,00");
    CurrencyExample();
    assert HandleChange(d, ValorTotal, "15000") == e;
    MariaCard(e);
  }

  lemma MariaCard(e: Orcamento)
    requires e.clienteNome == "Maria" && e.observacoes == []
    requires e.origemUF == "SP" && e.origemCidade == "Campinas" && e.origemBairro == []
    requires e.destinoUF == "RJ" && e.destinoCidade == "Rio de Janeiro" && e.destinoBairro == []
    requires e.valorTotal == Prefix + "150,00"
    ensures var card := ComposeCard(e);
      && |card| == 6
      && card[0] == Client("Maria")
      && card[1] == Pickup("Campinas - SP")
      && card[2] == Delivery("Rio de Janeiro - RJ")
      && card[4] == Total(Prefix + "150,00")
  {
    AddressExamples();
    RioAddress();
  }

  lemma RioAddress()
    ensures FormatAddress("RJ", "Rio de Janeiro", "") == "Rio de Janeiro - RJ"
  {
    assert "Rio de Janeiro" + " - " + "RJ" + [] == "Rio de Janeiro - RJ";
  }
}

=== FILE: currency.dfy ===
/** The currency mask of the quote form (`formatCurrency`): the digits typed so
    far are read as a whole number of centavos and shown in the Brazilian real
    format of the pt-BR locale, e.g. `R$ 1.234,56`. The amount is kept as an
    integer number of cents throughout; the locale's grouping (a `.` every
    three integer digits, at least one digit before the `,`, exactly two after
    it) is spelled out explicitly. */
module Currency {
  import opened Text

  datatype Option<T> = None | Some(value: T)

  /** The currency symbol of BRL in pt-BR. */
  const Symbol: string := "R$"

  /** The locale emits a NO-BREAK SPACE (U+00A0) between the symbol and the amount. */
  const SymbolSpace: char := '\U{00A0}'

  const Prefix: string := Symbol + [SymbolSpace]

  /** The integer part of an amount: decimal digits, `.` before every group of three. */
  function Grouped(m: nat): (r: string)
    ensures 1 <= |r|
  {
    if m < 1000 then Decimal(m)
    else Grouped(m / 1000) + ['.'] + Padded(m % 1000, 3)
  }

  /** `n` cents rendered as a currency string: prefix, grouped reais, `,`, two
      digits of centavos. */
  function FormatCents(n: nat): string {
    Prefix + Grouped(n / 100) + [','] + Padded(n % 100, 2)
  }

  /** The rendering of an amount reads back as that amount, both through the
      currency reader and through the digits-only reading the mask applies. */
  lemma FormatCentsRoundTrip(n: nat)
    ensures ParseCurrency(FormatCents(n)) == Some(n)
    ensures DecimalValue(Digits(FormatCents(n))) == n
  {
    FormatCentsParses(n);
    FormatCentsDigits(n);
  }

  /** The amount, in cents, that an arbitrary input denotes: its digits read in base ten. */
  function CentsOf(value: string): nat {
    DecimalValue(Digits(value))
  }

  /** `formatCurrency(value)`: strip the non-digits, read them as cents, render. */
  function FormatCurrency(value: string): string {
    FormatCents(CentsOf(value))
  }

  /** The mask's output is a well-formed currency string for the amount the
      input's digits denote, and its own digits denote that same amount. */
  lemma FormatCurrencyMeaning(value: string)
    ensures ParseCurrency(FormatCurrency(value)) == Some(CentsOf(value))
    ensures CentsOf(FormatCurrency(value)) == CentsOf(value)
  {
    FormatCentsRoundTrip(CentsOf(value));
  }

  /** The canonical currency string for zero cents. */
  const ZeroCurrency: string := Prefix + "0,00"

  /** Reader for the integer part: accepts exactly the strings Grouped produces. */
  function ParseGrouped(s: string): Option<nat>
    decreases |s|
  {
    if s == [] then None
    else if |s| <= 3 then
      if CanonicalDigits(s) then Some(DecimalValue(s)) else None
    else if s[|s| - 4] == '.' && AllDigits(s[|s| - 3..]) then
      match ParseGrouped(s[..|s| - 4])
      case Some(h) => if h >= 1 then Some(h * 1000 + DecimalValue(s[|s| - 3..])) else None
      case None => None
    else None
  }

  /** Reader for whole currency strings: the amount in cents, or None when `s`
      is not exactly what the currency mask produces. */
  function ParseCurrency(s: string): Option<nat> {
    if |s| < |Prefix| + 4 || s[..|Prefix|] != Prefix || s[|s| - 3] != ',' then None
    else
      var cents := s[|s| - 2..];
      if !AllDigits(cents) then None
      else ParseAmount(ParseGrouped(s[|Prefix|..|s| - 3]), DecimalValue(cents))
  }

  function ParseAmount(reais: Option<nat>, centavos: nat): Option<nat> {
    match reais
    case Some(h) => Some(h * 100 + centavos)
    case None => None
  }

  /** The form invariant on the stored total: empty, or a well-formed currency string. */
  predicate WellFormedCurrency(s: string) {
    ParseCurrency(s).Some?
  }

  lemma {:induction false} GroupedRoundTrip(m: nat)
    ensures ParseGrouped(Grouped(m)) == Some(m)
  {
    if m < 1000 {
      var s := Decimal(m);
      assert |s| <= 3 && CanonicalDigits(s);
    } else {
      GroupedRoundTrip(m / 1000);
      ParseGroupedAssembled(Grouped(m / 1000), Padded(m % 1000, 3), m / 1000);
    }
  }

  /** The reader peels the last group of three off at its separator. */
  lemma ParseGroupedAssembled(g: string, t: string, h: nat)
    requires ParseGrouped(g) == Some(h) && h >= 1
    requires |t| == 3 && AllDigits(t)
    ensures ParseGrouped(g + ['.'] + t) == Some(h * 1000 + DecimalValue(t))
  {
    var s := g + ['.'] + t;
    assert s[..|s| - 4] == g;
    assert s[|s| - 3..] == t;
  }

  lemma {:induction false} GroupedCanonical(s: string, m: nat)
    requires ParseGrouped(s) == Some(m)
    ensures Grouped(m) == s
    decreases |s|
  {
    if |s| <= 3 {
      assert m < Pow10(|s|) <= 1000;
      DecimalOfValue(s);
    } else {
      var g, t, h := GroupPieces(s);
      var v := DecimalValue(t);
      assert m == h * 1000 + v && v < 1000;
      GroupParts(h, v);
      GroupedCanonical(g, h);
      PaddedOfValue(t);
      GroupedAssembled(m, h, v);
    }
  }

  /** An accepted integer part of more than three characters is an accepted
      part `g` worth `h`, a `.`, and a group of three digits. */
  lemma GroupPieces(s: string) returns (g: string, t: string, h: nat)
    requires ParseGrouped(s).Some? && |s| > 3
    ensures s == g + ['.'] + t && |g| < |s|
    ensures |t| == 3 && AllDigits(t) && ParseGrouped(g) == Some(h) && h >= 1
    ensures ParseGrouped(s) == Some(h * 1000 + DecimalValue(t))
  {
    g, t := s[..|s| - 4], s[|s| - 3..];
    h := ParseGrouped(g).value;
    assert s == g + [s[|s| - 4]] + t;
  }

  lemma GroupParts(h: nat, v: nat)
    requires v < 1000
    ensures (h * 1000 + v) / 1000 == h && (h * 1000 + v) % 1000 == v
  {
  }

  lemma GroupedAssembled(m: nat, h: nat, v: nat)
    requires m >= 1000 && v < 1000 && m / 1000 == h && m % 1000 == v
    ensures Grouped(m) == Grouped(h) + ['.'] + Padded(v, 3)
  {
  }

  /** Removing the group separators leaves the plain decimal spelling of the
      number: its digits, with no leading zero. */
  lemma {:induction false} GroupedDigits(m: nat)
    ensures Digits(Grouped(m)) == Decimal(m)
    ensures DecimalValue(Digits(Grouped(m))) == m
  {
    if m < 1000 {
      var s := Decimal(m);
      assert Grouped(m) == s && AllDigits(s);
    } else {
      var h := m / 1000;
      var g, t := Grouped(h), Padded(m % 1000, 3);
      assert Digits(Grouped(m)) == Digits(g) + t by {
        assert Grouped(m) == g + ['.'] + t;
        DigitsAroundSeparator(g, '.', t);
      }
      GroupedDigits(h);
      DecimalOfThousands(m);
    }
  }

  /** The decimal spelling of a number from a thousand on is that of its
      thousands followed by the last three digits. */
  lemma DecimalOfThousands(m: nat)
    requires m >= 1000
    ensures Decimal(m / 1000) + Padded(m % 1000, 3) == Decimal(m)
  {
    var h, t := m / 1000, Padded(m % 1000, 3);
    var n := h * 1000 + DecimalValue(t);
    assert n == m;
    DecimalFollowedByGroup(h, t);
  }

  /** A decimal spelling followed by a full group of three digits is again a
      decimal spelling, of the number they denote together. */
  lemma DecimalFollowedByGroup(h: nat, t: string)
    requires h >= 1 && |t| == 3 && AllDigits(t)
    ensures Decimal(h) + t == Decimal(h * 1000 + DecimalValue(t))
  {
    var s := Decimal(h) + t;
    DecimalValueConcat(Decimal(h), t);
    assert Pow10(|t|) == 1000;
    assert s[0] == Decimal(h)[0];
    assert CanonicalDigits(s);
    DecimalOfValue(s);
  }

  lemma DigitsAroundSeparator(g: string, sep: char, t: string)
    requires !IsDigit(sep) && AllDigits(t)
    ensures Digits(g + [sep] + t) == Digits(g) + t
  {
    var a := g + [sep];
    DigitsConcat(a, t);
    DigitsConcat(g, [sep]);
    DigitsOfOne(sep);
    assert Digits(a) == Digits(g);
    assert Digits(t) == t;
  }

  lemma DigitsOfOne(c: char)
    requires !IsDigit(c)
    ensures Digits([c]) == []
  {
    assert [c][1..] == [];
  }

  lemma FormatCentsParses(n: nat)
    ensures ParseCurrency(Prefix + Grouped(n / 100) + [','] + Padded(n % 100, 2)) == Some(n)
  {
    var h, v := n / 100, n % 100;
    GroupedRoundTrip(h);
    ParseAssembled(Grouped(h), Padded(v, 2), h);
    assert h * 100 + v == n;
  }

  /** The reader takes a currency string apart at its fixed positions. */
  lemma ParseAssembled(g: string, t: string, h: nat)
    requires ParseGrouped(g) == Some(h)
    requires |t| == 2 && AllDigits(t)
    ensures ParseCurrency(Prefix + g + [','] + t) == Some(h * 100 + DecimalValue(t))
  {
    var s := Prefix + g + [','] + t;
    assert |g| >= 1;
    Pieces(Prefix, g, ',', t);
    assert |s| >= |Prefix| + 4;
    var cents, body := s[|s| - 2..], s[|Prefix|..|s| - 3];
    assert cents == t && body == g;
    assert ParseCurrency(s) == ParseAmount(ParseGrouped(body), DecimalValue(cents));
    assert ParseGrouped(body) == Some(h);
    AmountOf(h, DecimalValue(t));
  }

  lemma AmountOf(h: nat, c: nat)
    ensures ParseAmount(Some(h), c) == Some(h * 100 + c)
  {
  }

  /** Where the parts of `a + b + [x] + t` sit in it. */
  lemma Pieces(a: string, b: string, x: char, t: string)
    ensures var s := a + b + [x] + t;
      && |s| == |a| + |b| + 1 + |t|
      && s[..|a|] == a && s[|a|..|s| - |t| - 1] == b
      && s[|s| - |t| - 1] == x && s[|s| - |t|..] == t
  {
  }

  lemma PrefixHasNoDigits()
    ensures Digits(Prefix) == []
  {
    assert Prefix == ['R', '$', SymbolSpace];
    assert Prefix[1..] == ['$', SymbolSpace];
    assert Prefix[1..][1..] == [SymbolSpace];
    assert Digits([SymbolSpace]) == [];
  }

  lemma FormatCentsDigits(n: nat)
    ensures DecimalValue(Digits(Prefix + Grouped(n / 100) + [','] + Padded(n % 100, 2))) == n
  {
    var g := Grouped(n / 100);
    var t := Padded(n % 100, 2);
    DigitsAssembled(g, t);
    GroupedDigits(n / 100);
    DecimalValueConcat(Digits(g), t);
    assert Pow10(|t|) == 100;
    assert DecimalValue(Digits(g) + t) == (n / 100) * 100 + n % 100;
  }

  /** Only the integer part and the cents of a currency string are digits. */
  lemma DigitsAssembled(g: string, t: string)
    requires AllDigits(t)
    ensures Digits(Prefix + g + [','] + t) == Digits(g) + t
  {
    DigitsAroundSeparator(Prefix + g, ',', t);
    DigitsConcat(Prefix, g);
    PrefixHasNoDigits();
  }

  /** Every string the reader accepts is the rendering of the amount it reads:
      there is exactly one currency string per amount. */
  lemma CurrencyCanonical(s: string, n: nat)
    requires ParseCurrency(s) == Some(n)
    ensures FormatCents(n) == s
  {
    var g, t, h := CurrencyPieces(s);
    var v := DecimalValue(t);
    assert n == h * 100 + v;
    CentsParts(h, v);
    GroupedCanonical(g, h);
    PaddedOfValue(t);
    FormatCentsAssembled(n, h, v);
  }

  lemma FormatCentsAssembled(n: nat, h: nat, v: nat)
    requires v < 100 && n / 100 == h && n % 100 == v
    ensures FormatCents(n) == Prefix + Grouped(h) + [','] + Padded(v, 2)
  {
  }

  /** An accepted string is the prefix, an accepted integer part `g` worth
      `h`, the comma and two digits of cents. */
  lemma CurrencyPieces(s: string) returns (g: string, t: string, h: nat)
    requires ParseCurrency(s).Some?
    ensures s == Prefix + g + [','] + t
    ensures |t| == 2 && AllDigits(t) && ParseGrouped(g) == Some(h)
    ensures ParseCurrency(s) == Some(h * 100 + DecimalValue(t))
  {
    g, t := s[|Prefix|..|s| - 3], s[|s| - 2..];
    h := ParseGrouped(g).value;
    assert s == s[..|Prefix|] + g + [s[|s| - 3]] + t;
  }

  lemma CentsParts(h: nat, v: nat)
    requires v < 100
    ensures (h * 100 + v) / 100 == h && (h * 100 + v) % 100 == v
  {
  }

  /** The mask depends on nothing but the amount its input's digits denote. */
  lemma CurrencyDependsOnAmount(a: string, b: string)
    ensures FormatCurrency(a) == FormatCurrency(b) <==> CentsOf(a) == CentsOf(b)
  {
    FormatCurrencyMeaning(a);
    FormatCurrencyMeaning(b);
  }

  /** Appending a digit to any input shifts the amount it denotes by one decimal place. */
  lemma CentsAppend(x: string, c: char)
    requires IsDigit(c)
    ensures CentsOf(x + [c]) == CentsOf(x) * 10 + DigitValue(c)
  {
    DigitsConcat(x, [c]);
    DecimalValueConcat(Digits(x), [c]);
  }

  /** An input with no digits, or whose digits are all zeros, shows zero. */
  lemma CurrencyZero(value: string)
    requires forall i :: 0 <= i < |value| ==> !('1' <= value[i] <= '9')
    ensures FormatCurrency(value) == ZeroCurrency
  {
    ZeroDigitsValue(value);
    ZeroRendering();
  }

  lemma ZeroRendering()
    ensures FormatCents(0) == ZeroCurrency
  {
    assert Grouped(0) == "0";
    assert Padded(0, 2) == "00";
    assert Prefix + "0" + [','] + "00" == Prefix + "0,00";
  }

  lemma {:induction false} ZeroDigitsValue(value: string)
    requires forall i :: 0 <= i < |value| ==> !('1' <= value[i] <= '9')
    ensures CentsOf(value) == 0
  {
    if value != [] {
      var p := value[..|value| - 1];
      var c := value[|value| - 1];
      ZeroDigitsValue(p);
      assert value == p + [c];
      if IsDigit(c) {
        CentsAppend(p, c);
      } else {
        DigitsConcat(p, [c]);
        DigitsOfOne(c);
        assert Digits(value) == Digits(p);
      }
    }
  }

  /** Masking an already-masked value changes nothing. */
  lemma CurrencyIdempotent(value: string)
    ensures FormatCurrency(FormatCurrency(value)) == FormatCurrency(value)
  {
    var f := FormatCurrency(value);
    FormatCurrencyMeaning(value);
    assert CentsOf(f) == CentsOf(value);
    assert FormatCurrency(f) == FormatCents(CentsOf(f));
  }

  /** Typing digit `k` after a masked amount of `n` cents yields `10 n + k` cents:
      the per-keystroke behaviour of the total field. */
  lemma CurrencyKeystroke(n: nat, k: nat)
    requires k < 10
    ensures FormatCurrency(FormatCents(n) + [DigitChar(k)]) == FormatCents(10 * n + k)
  {
    var x := FormatCents(n) + [DigitChar(k)];
    FormatCentsRoundTrip(n);
    CentsAppend(FormatCents(n), DigitChar(k));
    var m := CentsOf(x);
    assert m == 10 * n + k;
    assert FormatCurrency(x) == FormatCents(m);
  }

  /** Deleting the last character of a masked amount of `n` cents yields `n / 10` cents. */
  lemma CurrencyBackspace(n: nat)
    ensures var f := FormatCents(n); FormatCurrency(f[..|f| - 1]) == FormatCents(n / 10)
  {
    var f := FormatCents(n);
    var p, c := f[..|f| - 1], f[|f| - 1];
    LastIsDigit(Prefix + Grouped(n / 100) + [','], Padded(n % 100, 2));
    assert f == p + [c];
    FormatCentsRoundTrip(n);
    CentsAppend(p, c);
    assert CentsOf(p) == n / 10;
  }

  lemma LastIsDigit(a: string, t: string)
    requires |t| == 2 && AllDigits(t)
    ensures IsDigit((a + t)[|a + t| - 1])
  {
    assert (a + t)[|a + t| - 1] == t[1];
  }

  /** `formatCurrency("15000")` shows one hundred and fifty reais. */
  lemma CurrencyExample()
    ensures FormatCurrency("15000") == Prefix + "150,00"
  {
    ReadsFifteenThousand();
    RendersFifteenThousand();
  }

  lemma ReadsFifteenThousand()
    ensures CentsOf("15000") == 15000
  {
    var s := "15000";
    assert Digits(s) == s;
    assert s[..4] == "1500" && "1500"[..3] == "150" && "150"[..2] == "15" && "15"[..1] == "1";
  }

  lemma RendersFifteenThousand()
    ensures FormatCents(15000) == Prefix + "150,00"
  {
    var g, t := Grouped(150), Padded(0, 2);
    assert 15000 / 100 == 150 && 15000 % 100 == 0;
    assert FormatCents(15000) == Prefix + g + [','] + t;
    GroupsOneHundredFifty();
    AppendAssoc(Prefix, g, [','] + t);
  }

  lemma GroupsOneHundredFifty()
    ensures Grouped(150) + ([','] + Padded(0, 2)) == "150,00"
  {
    assert DigitChar(1) == '1' && DigitChar(5) == '5' && DigitChar(0) == '0';
    var d1 := Decimal(1);
    assert d1 == ['1'];
    var d15 := Decimal(15);
    assert d15 == d1 + ['5'];
    var d150 := Decimal(150);
    assert d150 == d15 + ['0'];
    var p1 := Padded(0, 1);
    assert p1 == [] + ['0'];
    var p2 := Padded(0, 2);
    assert p2 == p1 + ['0'];
    assert d150 + ([','] + p2) == ['1', '5', '0', ',', '0', '0'];
  }

  lemma AppendAssoc(a: string, b: string, c: string)
    ensures a + b + c == a + (b + c)
  {
  }
}

=== FILE: date.dfy ===
/** The card's date conversion (`formatDate`): an ISO `YYYY-MM-DD` string is
    split on `-` and re-joined as `DD/MM/YYYY`. JavaScript array destructuring
    reads a missing component as `undefined`, which the template literal
    prints as the word itself; components past the third are ignored. */
module DateFormat {
  import opened Text

  /** What a template literal prints for a missing array element. */
  const Undefined: string := "undefined"

  /** The `i`-th component of a split, as destructuring reads it. */
  function Component(parts: seq<string>, i: nat): string {
    if i < |parts| then parts[i] else Undefined
  }

  function FormatDate(dateString: string): string {
    if dateString == [] then []
    else
      var parts := Split(dateString, '-');
      Component(parts, 2) + "/" + Component(parts, 1) + "/" + Component(parts, 0)
  }

  lemma EmptyDate()
    ensures FormatDate("") == ""
  {
  }

  /** The text of a date of three components `y-m-d`. */
  function IsoText(y: string, m: string, d: string): string {
    y + "-" + m + "-" + d
  }

  /** Any `-`-separated text of three or more components shows its third,
      second and first components, `/`-separated: components after the third
      are ignored. */
  lemma JoinedDate(parts: seq<string>)
    requires |parts| >= 3
    requires forall i :: 0 <= i < |parts| ==> '-' !in parts[i]
    ensures FormatDate(Join(parts, '-')) == parts[2] + "/" + parts[1] + "/" + parts[0]
  {
    SplitJoin(parts, '-');
    assert |Join(parts, '-')| > 0;
  }

  /** A date of exactly three components `y-m-d` comes out as `d/m/y`. */
  lemma IsoDate(y: string, m: string, d: string)
    requires '-' !in y && '-' !in m && '-' !in d
    ensures FormatDate(IsoText(y, m, d)) == d + "/" + m + "/" + y
  {
    JoinThree(y, m, d, '-');
    JoinedDate([y, m, d]);
  }

  /** A date with fewer than three components shows `undefined` in place of
      each missing one. */
  lemma MissingComponents(s: string)
    requires s != [] && Count(s, '-') < 2
    ensures Count(s, '-') == 0 ==> FormatDate(s) == Undefined + "/" + Undefined + "/" + s
    ensures Count(s, '-') == 1 ==>
      var parts := Split(s, '-'); FormatDate(s) == Undefined + "/" + parts[1] + "/" + parts[0]
  {
    if Count(s, '-') == 0 {
      SplitNoSeparator(s, '-');
    }
  }

  /** A non-empty input gives exactly two `/` separators whenever none of its
      first three `-`-separated parts holds a `/`; parts after the third are
      dropped, so a `/` there does not show. In particular every non-empty
      input free of `/` qualifies. */
  lemma TwoSeparators(s: string)
    requires s != []
    requires forall i :: 0 <= i < |Split(s, '-')| && i < 3 ==> '/' !in Split(s, '-')[i]
    ensures Count(FormatDate(s), '/') == 2
  {
    var parts := Split(s, '-');
    var a, b, c := Component(parts, 2), Component(parts, 1), Component(parts, 0);
    NoSlashInComponent(parts, 2);
    NoSlashInComponent(parts, 1);
    NoSlashInComponent(parts, 0);
    CountConcat(a + "/" + b + "/", c, '/');
    CountConcat(a + "/" + b, "/", '/');
    CountConcat(a + "/", b, '/');
    CountConcat(a, "/", '/');
  }

  lemma NoSlashInComponent(parts: seq<string>, i: nat)
    requires i < |parts| ==> '/' !in parts[i]
    ensures '/' !in Component(parts, i)
  {
    if i >= |parts| {
      assert Undefined == "undefined";
    }
  }

  /** An input free of `/` meets the condition of TwoSeparators. */
  lemma NoSlashInput(s: string)
    requires s != [] && '/' !in s
    ensures Count(FormatDate(s), '/') == 2
  {
    TwoSeparators(s);
  }

  /** A fourth part is dropped, whatever it holds: `y-m-d-rest` shows as
      `d/m/y`, with exactly two `/` even when `rest` holds some. */
  lemma LaterPartDropped(y: string, m: string, d: string, rest: string)
    requires '-' !in y && '-' !in m && '-' !in d && '-' !in rest
    requires '/' !in y && '/' !in m && '/' !in d
    ensures FormatDate(IsoText(y, m, d) + "-" + rest) == d + "/" + m + "/" + y
    ensures Count(FormatDate(IsoText(y, m, d) + "-" + rest), '/') == 2
  {
    var parts := [y, m, d, rest];
    var s := IsoText(y, m, d) + "-" + rest;
    assert Join(parts, '-') == s by {
      assert parts[1..] == [m, d, rest];
      JoinThree(m, d, rest, '-');
    }
    JoinedDate(parts);
    SplitJoin(parts, '-');
    TwoSeparators(s);
  }

  /** The displayed date splits back on `/` into its three components, in
      day, month, year order. */
  lemma DisplayRoundTrip(y: string, m: string, d: string)
    requires '-' !in y && '-' !in m && '-' !in d
    requires '/' !in y && '/' !in m && '/' !in d
    ensures Split(FormatDate(IsoText(y, m, d)), '/') == [d, m, y]
  {
    IsoDate(y, m, d);
    SplitJoin([d, m, y], '/');
    JoinThree(d, m, y, '/');
  }

  lemma JoinThree(a: string, b: string, c: string, sep: char)
    ensures Join([a, b, c], sep) == a + [sep] + b + [sep] + c
  {
    assert [a, b, c][1..] == [b, c];
    assert [b, c][1..] == [c];
    assert Join([b, c], sep) == b + [sep] + c;
    assert Join([a, b, c], sep) == a + [sep] + (b + [sep] + c);
  }

  /** `formatDate("2025-03-07")` is `"07/03/2025"`. */
  lemma DateExample()
    ensures FormatDate("2025-03-07") == "07/03/2025"
  {
    ExampleText();
    IsoDate("2025", "03", "07");
    ExampleDisplay();
  }

  lemma ExampleText()
    ensures IsoText("2025", "03", "07") == "2025-03-07"
  {
  }

  lemma ExampleDisplay()
    ensures "07" + "/" + "03" + "/" + "2025" == "07/03/2025"
  {
  }
}

=== FILE: form.dfy ===
/** The quote record of the form (`OrcamentoData`) and its per-field update
    (`handleChange`), as a pure reducer: each change names one field and the
    raw text the input holds; the total is stored through the currency mask,
    the sender's contact through the phone mask, and every other field
    verbatim. */
module Form {
  import opened Text
  import opened Currency
  import opened Phone

  datatype Orcamento = Orcamento(
    clienteNome: string,
    origemUF: string,
    origemCidade: string,
    origemBairro: string,
    destinoUF: string,
    destinoCidade: string,
    destinoBairro: string,
    dataServico: string,
    valorTotal: string,
    observacoes: string,
    seuNome: string,
    suaEmpresa: string,
    seuContato: string)

  /** The `name` attribute of the form control that fired the change. */
  datatype Field =
    | ClienteNome | OrigemUF | OrigemCidade | OrigemBairro
    | DestinoUF | DestinoCidade | DestinoBairro
    | DataServico | ValorTotal | Observacoes
    | SeuNome | SuaEmpresa | SeuContato

  /** One input event: the control's name and its current value. */
  datatype Change = Change(field: Field, value: string)

  function Get(d: Orcamento, f: Field): string {
    match f
    case ClienteNome => d.clienteNome
    case OrigemUF => d.origemUF
    case OrigemCidade => d.origemCidade
    case OrigemBairro => d.origemBairro
    case DestinoUF => d.destinoUF
    case DestinoCidade => d.destinoCidade
    case DestinoBairro => d.destinoBairro
    case DataServico => d.dataServico
    case ValorTotal => d.valorTotal
    case Observacoes => d.observacoes
    case SeuNome => d.seuNome
    case SuaEmpresa => d.suaEmpresa
    case SeuContato => d.seuContato
  }

  /** `{ ...prev, [name]: v }`: the record with one field replaced. */
  function Put(d: Orcamento, f: Field, v: string): (r: Orcamento)
    ensures Get(r, f) == v
    ensures forall g :: g != f ==> Get(r, g) == Get(d, g)
  {
    match f
    case ClienteNome => d.(clienteNome := v)
    case OrigemUF => d.(origemUF := v)
    case OrigemCidade => d.(origemCidade := v)
    case OrigemBairro => d.(origemBairro := v)
    case DestinoUF => d.(destinoUF := v)
    case DestinoCidade => d.(destinoCidade := v)
    case DestinoBairro => d.(destinoBairro := v)
    case DataServico => d.(dataServico := v)
    case ValorTotal => d.(valorTotal := v)
    case Observacoes => d.(observacoes := v)
    case SeuNome => d.(seuNome := v)
    case SuaEmpresa => d.(suaEmpresa := v)
    case SeuContato => d.(seuContato := v)
  }

  /** Two records are equal when they agree on every field. */
  lemma Extensionality(a: Orcamento, b: Orcamento)
    requires forall f :: Get(a, f) == Get(b, f)
    ensures a == b
  {
    assert Get(a, ClienteNome) == Get(b, ClienteNome);
    assert Get(a, OrigemUF) == Get(b, OrigemUF);
    assert Get(a, OrigemCidade) == Get(b, OrigemCidade);
    assert Get(a, OrigemBairro) == Get(b, OrigemBairro);
    assert Get(a, DestinoUF) == Get(b, DestinoUF);
    assert Get(a, DestinoCidade) == Get(b, DestinoCidade);
    assert Get(a, DestinoBairro) == Get(b, DestinoBairro);
    assert Get(a, DataServico) == Get(b, DataServico);
    assert Get(a, ValorTotal) == Get(b, ValorTotal);
    assert Get(a, Observacoes) == Get(b, Observacoes);
    assert Get(a, SeuNome) == Get(b, SeuNome);
    assert Get(a, SuaEmpresa) == Get(b, SuaEmpresa);
    assert Get(a, SeuContato) == Get(b, SeuContato);
  }

  /** The per-field transform applied before storing: the currency mask for
      the total, the phone mask for the contact, the identity otherwise. */
  function Normalize(f: Field, value: string): string {
    match f
    case ValorTotal => FormatCurrency(value)
    case SeuContato => FormatPhone(value)
    case _ => value
  }

  /** `handleChange`: store the normalized value in the named field. */
  function HandleChange(d: Orcamento, f: Field, value: string): (r: Orcamento)
    ensures Get(r, f) == Normalize(f, value)
    ensures forall g :: g != f ==> Get(r, g) == Get(d, g)
  {
    Put(d, f, Normalize(f, value))
  }

  /** The record at start-up; `today` is the ISO date of the host clock. */
  function Initial(today: string): Orcamento {
    Orcamento(
      clienteNome := "", origemUF := "", origemCidade := "", origemBairro := "",
      destinoUF := "", destinoCidade := "", destinoBairro := "",
      dataServico := today, valorTotal := "", observacoes := "",
      seuNome := "Seu Nome", suaEmpresa := "Nome da Transportadora", seuContato := "")
  }

  /** The state after a sequence of input events, applied in order. */
  function Replay(d: Orcamento, changes: seq<Change>): Orcamento
    decreases |changes|
  {
    if changes == [] then d
    else Replay(HandleChange(d, changes[0].field, changes[0].value), changes[1..])
  }

  // ---------------------------------------------------------------------------
  // What the update stores

  /** The total is stored as the currency rendering of the digits typed, the
      contact as a phone mask keeping a prefix of the digits typed, and every
      other field exactly as typed. */
  lemma StoredValue(d: Orcamento, f: Field, value: string)
    ensures var r := HandleChange(d, f, value);
      && (f == ValorTotal ==> ParseCurrency(r.valorTotal) == Some(CentsOf(value)))
      && (f == SeuContato ==> |r.seuContato| <= MaxLength && Digits(r.seuContato) <= Digits(value))
      && (f != ValorTotal && f != SeuContato ==> Get(r, f) == value)
  {
    if f == ValorTotal {
      FormatCurrencyMeaning(value);
    } else if f == SeuContato {
      PhoneDigits(value);
    }
  }

  /** Choosing a new UF leaves the chosen city of that leg in place. */
  lemma UfChangeKeepsCity(d: Orcamento, uf: string)
    ensures HandleChange(d, OrigemUF, uf).origemCidade == d.origemCidade
    ensures HandleChange(d, OrigemUF, uf).origemUF == uf
    ensures HandleChange(d, DestinoUF, uf).destinoCidade == d.destinoCidade
    ensures HandleChange(d, DestinoUF, uf).destinoUF == uf
  {
    assert Get(HandleChange(d, OrigemUF, uf), OrigemCidade) == d.origemCidade;
    assert Get(HandleChange(d, DestinoUF, uf), DestinoCidade) == d.destinoCidade;
  }

  /** A second change to the same field overrides the first. */
  lemma LastWriteWins(d: Orcamento, f: Field, v1: string, v2: string)
    ensures HandleChange(HandleChange(d, f, v1), f, v2) == HandleChange(d, f, v2)
  {
    var a, b := HandleChange(HandleChange(d, f, v1), f, v2), HandleChange(d, f, v2);
    forall g ensures Get(a, g) == Get(b, g) {
    }
    Extensionality(a, b);
  }

  /** Changes to different fields commute. */
  lemma DistinctFieldsCommute(d: Orcamento, f: Field, g: Field, v: string, w: string)
    requires f != g
    ensures HandleChange(HandleChange(d, f, v), g, w) == HandleChange(HandleChange(d, g, w), f, v)
  {
    var a, b := HandleChange(HandleChange(d, f, v), g, w), HandleChange(HandleChange(d, g, w), f, v);
    forall h ensures Get(a, h) == Get(b, h) {
    }
    Extensionality(a, b);
  }

  /** Typing digit `k` into a total that shows `n` cents stores `10 n + k` cents. */
  lemma TotalKeystroke(d: Orcamento, n: nat, k: nat)
    requires d.valorTotal == FormatCents(n) && k < 10
    ensures HandleChange(d, ValorTotal, d.valorTotal + [DigitChar(k)]).valorTotal
      == FormatCents(10 * n + k)
  {
    CurrencyKeystroke(n, k);
  }

  // ---------------------------------------------------------------------------
  // The record invariant

  /** The stored contact is the phone mask of some input. */
  ghost predicate IsPhoneMask(s: string) {
    exists v :: s == FormatPhone(v)
  }

  /** The total is empty or a well-formed currency string, and the contact is
      the output of the phone mask (in particular at most fifteen characters). */
  ghost predicate Valid(d: Orcamento) {
    && (d.valorTotal == [] || WellFormedCurrency(d.valorTotal))
    && IsPhoneMask(d.seuContato)
  }

  lemma InitialValid(today: string)
    ensures Valid(Initial(today))
  {
    assert FormatPhone("") == "";
  }

  lemma HandleChangeValid(d: Orcamento, f: Field, value: string)
    requires Valid(d)
    ensures Valid(HandleChange(d, f, value))
  {
    var r := HandleChange(d, f, value);
    if f == ValorTotal {
      FormatCurrencyMeaning(value);
    } else if f == SeuContato {
      assert r.seuContato == FormatPhone(value);
    } else {
      assert Get(r, ValorTotal) == d.valorTotal && Get(r, SeuContato) == d.seuContato;
    }
  }

  /** Every state the form can reach from start-up keeps the invariant. */
  lemma {:induction false} ReplayValid(d: Orcamento, changes: seq<Change>)
    requires Valid(d)
    ensures Valid(Replay(d, changes))
    decreases |changes|
  {
    if changes != [] {
      HandleChangeValid(d, changes[0].field, changes[0].value);
      ReplayValid(HandleChange(d, changes[0].field, changes[0].value), changes[1..]);
    }
  }

  /** The contact of any reachable state is at most fifteen characters long. */
  lemma ReachableContactLength(today: string, changes: seq<Change>)
    ensures |Replay(Initial(today), changes).seuContato| <= MaxLength
  {
    InitialValid(today);
    ReplayValid(Initial(today), changes);
  }
}

=== FILE: phone.dfy ===
/** The Brazilian phone mask of the sender's WhatsApp field (`formatPhone`).
    The four steps of the source are kept apart: strip the non-digits, wrap a
    leading two-digit area code as `(DD) ` when a third digit follows, put `-`
    before the last four characters when the last five are digits, and cut the
    result to fifteen characters. The two regular-expression replacements are
    written as the sequence operations they amount to. */
module Phone {
  import opened Text

  /** `.substring(0, 15)` */
  const MaxLength: nat := 15

  /** `(x) `, the area-code wrapper. */
  function Bracketed(x: string): string {
    "(" + x + ") "
  }

  /** `.replace(/^(\d{2})(\d)/g, '($1) $2')`: the pattern is anchored at the
      start, so it can match at most once, and it needs three leading digits. */
  function AreaCode(s: string): string {
    if |s| >= 3 && IsDigit(s[0]) && IsDigit(s[1]) && IsDigit(s[2])
    then Bracketed(s[..2]) + s[2..]
    else s
  }

  /** `.replace(/(\d)(\d{4})$/, '$1-$2')`: the match must end the string, so it
      exists exactly when the last five characters are digits. */
  function Hyphen(s: string): string {
    if |s| >= 5 && AllDigits(s[|s| - 5..])
    then s[..|s| - 4] + "-" + s[|s| - 4..]
    else s
  }

  /** `.substring(0, n)` */
  function Truncate(s: string, n: nat): (r: string)
    ensures |r| == if |s| <= n then |s| else n
    ensures r <= s
  {
    if |s| <= n then s else s[..n]
  }

  function FormatPhone(value: string): (r: string)
    ensures |r| <= MaxLength
  {
    Truncate(Hyphen(AreaCode(Digits(value))), MaxLength)
  }

  /** How many of the input's digits survive the mask: all of them up to
      eleven; eleven when the cut falls after the hyphen; twelve when the
      hyphen itself is cut off. */
  function KeptDigits(k: nat): nat {
    if k <= 11 then k else if k <= 15 then 11 else 12
  }

  /** A display pattern: `#` stands for any digit, every other character for itself. */
  predicate Matches(s: string, pattern: string) {
    |s| == |pattern|
    && forall i :: 0 <= i < |s| ==> if pattern[i] == '#' then IsDigit(s[i]) else s[i] == pattern[i]
  }

  function Hashes(n: nat): (r: string)
    ensures |r| == n
    ensures forall i :: 0 <= i < n ==> r[i] == '#'
  {
    if n == 0 then [] else Hashes(n - 1) + "#"
  }

  // ---------------------------------------------------------------------------
  // The mask, case by case

  lemma ShortInput(d: string)
    requires AllDigits(d) && |d| < 3
    ensures Hyphen(AreaCode(d)) == d
  {
  }

  lemma AreaCodeOnDigits(d: string)
    requires AllDigits(d) && |d| >= 3
    ensures AreaCode(d) == Bracketed(d[..2]) + d[2..]
  {
    assert IsDigit(d[0]) && IsDigit(d[1]) && IsDigit(d[2]);
  }

  /** Up to six digits the space of the wrapper still lies in the last five
      characters, so no hyphen is inserted. */
  lemma NoHyphenBelowSeven(d: string)
    requires AllDigits(d) && 3 <= |d| <= 6
    ensures Hyphen(AreaCode(d)) == Bracketed(d[..2]) + d[2..]
  {
    AreaCodeOnDigits(d);
    var a := Bracketed(d[..2]) + d[2..];
    assert a[4] == ' ';
    var w := a[|a| - 5..];
    assert w[4 - (|a| - 5)] == ' ';
    assert !AllDigits(w);
  }

  /** From seven digits on the last five characters are digits and the hyphen
      goes before the last four digits. */
  lemma HyphenFromSeven(d: string)
    requires AllDigits(d) && |d| >= 7
    ensures Hyphen(AreaCode(d)) == Bracketed(d[..2]) + d[2..|d| - 4] + "-" + d[|d| - 4..]
  {
    AreaCodeOnDigits(d);
    var b := Bracketed(d[..2]);
    var a := b + d[2..];
    assert |b| == 5;
    assert a[|a| - 5..] == d[|d| - 5..];
    assert a[..|a| - 4] == b + d[2..|d| - 4];
    assert a[|a| - 4..] == d[|d| - 4..];
  }

  lemma TakeWithinFirst(p: string, q: string, n: nat)
    requires n <= |p|
    ensures (p + q)[..n] == p[..n]
  {
  }

  lemma TakeIntoSecond(p: string, q: string, n: nat)
    requires |p| <= n <= |p| + |q|
    ensures (p + q)[..n] == p + q[..n - |p|]
  {
  }

  // ---------------------------------------------------------------------------
  // Digits of the mask

  lemma DigitsOfBracketed(x: string, y: string)
    requires AllDigits(x) && AllDigits(y)
    ensures Digits(Bracketed(x) + y) == x + y
  {
    var open, close := "(", ") ";
    DigitsOfNonDigits(open);
    DigitsOfNonDigits(close);
    var p1 := open + x;
    DigitsConcat(open, x);
    assert Digits(p1) == x;
    var p2 := p1 + close;
    DigitsConcat(p1, close);
    assert Digits(p2) == x;
    DigitsConcat(p2, y);
    assert Digits(p2 + y) == x + y;
    assert Bracketed(x) == p2;
  }

  lemma DigitsOfHyphenated(x: string, y: string, z: string)
    requires AllDigits(x) && AllDigits(y) && AllDigits(z)
    ensures Digits(Bracketed(x) + y + "-" + z) == x + y + z
  {
    var dash := "-";
    DigitsOfNonDigits(dash);
    var p := Bracketed(x) + y;
    DigitsOfBracketed(x, y);
    DigitsConcat(p, dash);
    assert Digits(p + dash) == x + y;
    DigitsConcat(p + dash, z);
  }

  /** The digits of the mask are the first KeptDigits of the input's digits:
      nothing is reordered or invented, and up to eleven digits nothing is lost. */
  lemma PhoneDigits(value: string)
    ensures var d := Digits(value); Digits(FormatPhone(value)) == d[..KeptDigits(|d|)]
  {
    var d := Digits(value);
    var k := |d|;
    var m := Truncate(Hyphen(AreaCode(d)), MaxLength);
    assert FormatPhone(value) == m;
    if k <= 6 {
      DigitsBelowSeven(d);
      assert d[..k] == d;
    } else if k <= 11 {
      DigitsUpToEleven(d);
      assert d[..k] == d;
    } else if k <= 15 {
      DigitsTwelveToFifteen(d);
    } else {
      DigitsFromSixteen(d);
    }
  }

  /** Below seven digits there is no hyphen and nothing is cut. */
  lemma DigitsBelowSeven(d: string)
    requires AllDigits(d) && |d| <= 6
    ensures Digits(Truncate(Hyphen(AreaCode(d)), MaxLength)) == d
  {
    if |d| < 3 {
      ShortInput(d);
    } else {
      NoHyphenBelowSeven(d);
      DigitsOfBracketed(d[..2], d[2..]);
      assert d[..2] + d[2..] == d;
    }
  }

  lemma DigitsUpToEleven(d: string)
    requires AllDigits(d) && 7 <= |d| <= 11
    ensures Digits(Truncate(Hyphen(AreaCode(d)), MaxLength)) == d
  {
    var k := |d|;
    HyphenFromSeven(d);
    var x, y, z := d[..2], d[2..k - 4], d[k - 4..];
    DigitsOfHyphenated(x, y, z);
    SliceJoin(d, 2, k - 4, k);
    assert d[..k] == d && d[k - 4..k] == z;
  }

  /** Between twelve and fifteen digits the cut falls after the hyphen. */
  lemma DigitsTwelveToFifteen(d: string)
    requires AllDigits(d) && 12 <= |d| <= 15
    ensures Digits(Truncate(Hyphen(AreaCode(d)), MaxLength)) == d[..11]
  {
    var k := |d|;
    var x, y, z := d[..2], d[2..k - 4], d[k - 4..11];
    CutAfterHyphen(d);
    DigitsOfHyphenated(x, y, z);
    SliceJoin(d, 2, k - 4, 11);
  }

  lemma CutAfterHyphen(d: string)
    requires AllDigits(d) && 12 <= |d| <= 15
    ensures Truncate(Hyphen(AreaCode(d)), MaxLength)
      == Bracketed(d[..2]) + d[2..|d| - 4] + "-" + d[|d| - 4..11]
  {
    var k := |d|;
    HyphenFromSeven(d);
    var z := d[k - 4..];
    var p := Bracketed(d[..2]) + d[2..k - 4] + "-";
    assert |p| == k;
    TakeIntoSecond(p, z, MaxLength);
    assert z[..MaxLength - k] == d[k - 4..11];
  }

  /** From sixteen digits on the cut falls before the hyphen. */
  lemma DigitsFromSixteen(d: string)
    requires AllDigits(d) && 16 <= |d|
    ensures Digits(Truncate(Hyphen(AreaCode(d)), MaxLength)) == d[..12]
  {
    var x, y := d[..2], d[2..12];
    CutBeforeHyphen(d);
    DigitsOfBracketed(x, y);
    SliceJoin(d, 0, 2, 12);
    assert d[0..2] == x;
  }

  lemma CutBeforeHyphen(d: string)
    requires AllDigits(d) && 16 <= |d|
    ensures Truncate(Hyphen(AreaCode(d)), MaxLength) == Bracketed(d[..2]) + d[2..12]
  {
    var k := |d|;
    var b, y, z := Bracketed(d[..2]), d[2..k - 4], d[k - 4..];
    var h := Hyphen(AreaCode(d));
    assert h == (b + y) + ("-" + z) by {
      HyphenFromSeven(d);
      assert b + y + "-" + z == (b + y) + ("-" + z);
    }
    assert |b| == 5 && |y| == k - 6;
    TakeWithinFirst(b + y, "-" + z, MaxLength);
    TakeIntoSecond(b, y, MaxLength);
    assert y[..MaxLength - 5] == d[2..12];
    assert Truncate(h, MaxLength) == h[..MaxLength];
  }

  lemma SliceJoin(d: string, i: nat, j: nat, l: nat)
    requires i <= j <= l <= |d|
    ensures d[..i] + d[i..j] + d[j..l] == d[..l]
  {
  }

  /** The mask depends on nothing but the input's digits. */
  lemma PhoneDependsOnDigits(a: string, b: string)
    requires Digits(a) == Digits(b)
    ensures FormatPhone(a) == FormatPhone(b)
  {
  }

  /** Re-masking a mask of at most eleven digits is a no-op. */
  lemma PhoneIdempotent(value: string)
    requires |Digits(value)| <= 11
    ensures FormatPhone(FormatPhone(value)) == FormatPhone(value)
  {
    PhoneDigits(value);
    var d := Digits(value);
    assert d[..|d|] == d;
  }

  /** Typing one more digit after a mask of at most ten digits masks the
      extended digit string: the per-keystroke behaviour of the contact field. */
  lemma PhoneKeystroke(value: string, c: char)
    requires |Digits(value)| <= 10 && IsDigit(c)
    ensures FormatPhone(FormatPhone(value) + [c]) == FormatPhone(Digits(value) + [c])
  {
    var d := Digits(value);
    PhoneDigits(value);
    assert d[..|d|] == d;
    DigitsConcat(FormatPhone(value), [c]);
    DigitsConcat(d, [c]);
  }

  // ---------------------------------------------------------------------------
  // Shape of the mask

  lemma MatchesConcat(s1: string, p1: string, s2: string, p2: string)
    requires Matches(s1, p1) && Matches(s2, p2)
    ensures Matches(s1 + s2, p1 + p2)
  {
    var s, p := s1 + s2, p1 + p2;
    forall i | 0 <= i < |s|
      ensures if p[i] == '#' then IsDigit(s[i]) else s[i] == p[i]
    {
      if i < |s1| {
        assert s[i] == s1[i] && p[i] == p1[i];
      } else {
        assert s[i] == s2[i - |s1|] && p[i] == p2[i - |s1|];
      }
    }
  }

  lemma MatchesDigits(x: string)
    requires AllDigits(x)
    ensures Matches(x, Hashes(|x|))
  {
  }

  lemma MatchesItself(x: string)
    requires '#' !in x
    ensures Matches(x, x)
  {
    forall i | 0 <= i < |x| ensures x[i] != '#' {
      assert x[i] in x;
    }
  }

  lemma MatchesBracketed(x: string)
    requires AllDigits(x) && |x| == 2
    ensures Matches(Bracketed(x), Bracketed("##"))
  {
    MatchesItself("(");
    MatchesDigits(x);
    assert Hashes(2) == "##";
    MatchesConcat("(", "(", x, "##");
    MatchesItself(") ");
    MatchesConcat("(" + x, "(##", ") ", ") ");
  }

  /** The mask's shape by digit count: fewer than three digits are shown bare;
      three to six get the area code only; seven to eleven get the area code
      and a hyphen before the last four; twelve or more are cut to fifteen
      characters. */
  lemma PhoneShape(value: string)
    ensures var d, r := Digits(value), FormatPhone(value);
      && (|d| < 3 ==> r == d)
      && (3 <= |d| <= 6 ==> Matches(r, Bracketed("##") + Hashes(|d| - 2)))
      && (7 <= |d| <= 11 ==> Matches(r, Bracketed("##") + Hashes(|d| - 6) + "-####"))
      && (12 <= |d| ==> |r| == MaxLength)
  {
    var d := Digits(value);
    var k := |d|;
    assert FormatPhone(value) == Truncate(Hyphen(AreaCode(d)), MaxLength);
    if k < 3 {
      ShortInput(d);
    } else if k <= 6 {
      ShapeBelowSeven(d);
    } else if k <= 11 {
      ShapeUpToEleven(d);
    } else {
      HyphenFromSeven(d);
    }
  }

  lemma ShapeBelowSeven(d: string)
    requires AllDigits(d) && 3 <= |d| <= 6
    ensures Matches(Truncate(Hyphen(AreaCode(d)), MaxLength), Bracketed("##") + Hashes(|d| - 2))
  {
    var x, y := d[..2], d[2..];
    assert |y| == |d| - 2;
    assert AllDigits(x) && AllDigits(y) by {
      AllDigitsSlice(d, 0, 2);
      AllDigitsSlice(d, 2, |d|);
    }
    assert Truncate(Hyphen(AreaCode(d)), MaxLength) == Bracketed(x) + y by {
      NoHyphenBelowSeven(d);
    }
    MatchesAreaAndBody(x, y);
  }

  lemma ShapeUpToEleven(d: string)
    requires AllDigits(d) && 7 <= |d| <= 11
    ensures Matches(Truncate(Hyphen(AreaCode(d)), MaxLength), Bracketed("##") + Hashes(|d| - 6) + "-####")
  {
    var k := |d|;
    var x, y, z := d[..2], d[2..k - 4], d[k - 4..];
    assert |y| == k - 6;
    assert AllDigits(x) && AllDigits(y) && AllDigits(z) by {
      AllDigitsSlice(d, 0, 2);
      AllDigitsSlice(d, 2, k - 4);
      AllDigitsSlice(d, k - 4, k);
    }
    assert Truncate(Hyphen(AreaCode(d)), MaxLength) == Bracketed(x) + y + "-" + z by {
      NoCutUpToEleven(d);
    }
    ShapeOfPieces(x, y, z);
  }

  lemma ShapeOfPieces(x: string, y: string, z: string)
    requires AllDigits(x) && |x| == 2 && AllDigits(y) && AllDigits(z) && |z| == 4
    ensures Matches(Bracketed(x) + y + "-" + z, Bracketed("##") + Hashes(|y|) + "-####")
  {
    MatchesAreaAndBody(x, y);
    MatchesHyphenTail(Bracketed(x) + y, Bracketed("##") + Hashes(|y|), z);
  }

  /** Up to eleven digits the mask is at most fifteen characters, so nothing is cut. */
  lemma NoCutUpToEleven(d: string)
    requires AllDigits(d) && 7 <= |d| <= 11
    ensures Truncate(Hyphen(AreaCode(d)), MaxLength)
      == Bracketed(d[..2]) + d[2..|d| - 4] + "-" + d[|d| - 4..]
  {
    HyphenFromSeven(d);
  }

  lemma MatchesAreaAndBody(x: string, y: string)
    requires AllDigits(x) && |x| == 2 && AllDigits(y)
    ensures Matches(Bracketed(x) + y, Bracketed("##") + Hashes(|y|))
  {
    MatchesBracketed(x);
    MatchesDigits(y);
    MatchesConcat(Bracketed(x), Bracketed("##"), y, Hashes(|y|));
  }

  /** A hyphen and four digits extend a match by `-####`. */
  lemma MatchesHyphenTail(s: string, p: string, z: string)
    requires Matches(s, p) && AllDigits(z) && |z| == 4
    ensures Matches(s + "-" + z, p + "-####")
  {
    MatchesItself("-");
    MatchesConcat(s, p, "-", "-");
    MatchesDigits(z);
    assert Hashes(4) == "####";
    MatchesConcat(s + "-", p + "-", z, "####");
    assert p + "-" + "####" == p + "-####";
  }

  /** `(DD) DDDD-DDDD`, a number with ten digits. */
  const LandlinePattern: string := "(##) ####-####"

  /** `(DD) DDDDD-DDDD`, a number with eleven digits. */
  const MobilePattern: string := "(##) #####-####"

  lemma LandlinePatternParts()
    ensures Bracketed("##") + Hashes(4) + "-####" == LandlinePattern
  {
    assert Hashes(4) == "####";
  }

  lemma MobilePatternParts()
    ensures Bracketed("##") + Hashes(5) + "-####" == MobilePattern
  {
    assert Hashes(5) == "#####";
  }

  /** Ten digits show as a landline number, `(DD) DDDD-DDDD`, keeping every digit. */
  lemma TenDigits(value: string)
    requires |Digits(value)| == 10
    ensures Matches(FormatPhone(value), LandlinePattern)
    ensures Digits(FormatPhone(value)) == Digits(value)
  {
    PhoneShape(value);
    PhoneDigits(value);
    LandlinePatternParts();
    var d := Digits(value);
    assert d[..10] == d;
  }

  /** Eleven digits show as a mobile number, `(DD) DDDDD-DDDD`, keeping every digit. */
  lemma ElevenDigits(value: string)
    requires |Digits(value)| == 11
    ensures Matches(FormatPhone(value), MobilePattern)
    ensures Digits(FormatPhone(value)) == Digits(value)
  {
    PhoneShape(value);
    PhoneDigits(value);
    MobilePatternParts();
    var d := Digits(value);
    assert d[..11] == d;
  }

  /** Beyond eleven digits the mask is not stable: twelve digits lose their
      last one to the cut, leaving the hyphen after the eighth digit, and
      masking that again moves the hyphen one place to the left. */
  lemma TwelveDigitsNotStable(value: string)
    requires |Digits(value)| == 12
    ensures FormatPhone(FormatPhone(value)) != FormatPhone(value)
  {
    var d := Digits(value);
    HyphenFromSeven(d);
    var b, y, z := Bracketed(d[..2]), d[2..8], d[8..];
    var h := b + y + "-" + z;
    var r := FormatPhone(value);
    assert r == h[..MaxLength];
    assert r[11] == h[11] == '-';
    PhoneDigits(value);
    assert |Digits(r)| == 11;
    ElevenDigits(r);
    MobileDigitAtEleven(FormatPhone(r));
  }

  lemma MobileDigitAtEleven(s: string)
    requires Matches(s, MobilePattern)
    ensures IsDigit(s[11])
  {
    assert MobilePattern[11] == '#';
  }
}

=== FILE: text.dfy ===
/** String primitives the formatters are built from: the ASCII digit class of
    JavaScript regular expressions (`\d` / `\D`), decimal reading and writing of
    digit strings, `String.prototype.split` on one separator character, and
    character counting. */
module Text {

  /** `\d` in a JavaScript regular expression without the `u` flag: ASCII 0-9. */
  predicate IsDigit(c: char) {
    '0' <= c <= '9'
  }

  predicate AllDigits(s: string) {
    forall i :: 0 <= i < |s| ==> IsDigit(s[i])
  }

  /** `s.replace(/\D/g, '')`: the digit subsequence of `s`. */
  function Digits(s: string): (r: string)
    ensures AllDigits(r)
    ensures |r| <= |s|
    ensures AllDigits(s) ==> r == s
  {
    if s == [] then []
    else (if IsDigit(s[0]) then [s[0]] else []) + Digits(s[1..])
  }

  lemma {:induction false} DigitsConcat(a: string, b: string)
    ensures Digits(a + b) == Digits(a) + Digits(b)
  {
    if a == [] {
      assert a + b == b;
    } else {
      var head := if IsDigit(a[0]) then [a[0]] else [];
      assert (a + b)[0] == a[0];
      assert (a + b)[1..] == a[1..] + b;
      DigitsConcat(a[1..], b);
      assert Digits(a) == head + Digits(a[1..]);
      assert Digits(a + b) == head + (Digits(a[1..]) + Digits(b));
    }
  }

  lemma {:induction false} DigitsOfNonDigits(s: string)
    requires forall i :: 0 <= i < |s| ==> !IsDigit(s[i])
    ensures Digits(s) == []
  {
    if s != [] {
      DigitsOfNonDigits(s[1..]);
    }
  }

  /** The digits of a prefix of `s` are a prefix of the digits of `s`. */
  lemma DigitsOfPrefix(s: string, k: nat)
    requires k <= |s|
    ensures Digits(s[..k]) <= Digits(s)
  {
    assert s == s[..k] + s[k..];
    DigitsConcat(s[..k], s[k..]);
  }

  function DigitValue(c: char): (v: nat)
    requires IsDigit(c)
    ensures v < 10
  {
    c as int - '0' as int
  }

  function DigitChar(k: nat): (c: char)
    requires k < 10
    ensures IsDigit(c) && DigitValue(c) == k
  {
    ('0' as int + k) as char
  }

  function Pow10(k: nat): (p: nat)
    ensures p >= 1
  {
    if k == 0 then 1 else 10 * Pow10(k - 1)
  }

  /** `Number(s)` for a string of ASCII digits: base ten, leading zeros
      insignificant, and the empty string reads as zero. */
  function DecimalValue(s: string): (v: nat)
    requires AllDigits(s)
    ensures v < Pow10(|s|)
  {
    if s == [] then 0
    else DecimalValue(s[..|s| - 1]) * 10 + DigitValue(s[|s| - 1])
  }

  lemma AllDigitsConcat(a: string, b: string)
    requires AllDigits(a) && AllDigits(b)
    ensures AllDigits(a + b)
  {
    forall i | 0 <= i < |a + b| ensures IsDigit((a + b)[i]) {
      if i < |a| { assert (a + b)[i] == a[i]; } else { assert (a + b)[i] == b[i - |a|]; }
    }
  }

  lemma AllDigitsSlice(s: string, i: nat, j: nat)
    requires AllDigits(s) && i <= j <= |s|
    ensures AllDigits(s[i..j])
  {
    forall k | 0 <= k < j - i ensures IsDigit(s[i..j][k]) {
      assert s[i..j][k] == s[i + k];
    }
  }

  lemma ShiftDigit(va: nat, p: nat, vb: nat, d: nat)
    ensures (va * p + vb) * 10 + d == va * (p * 10) + (vb * 10 + d)
  {
  }

  lemma {:induction false} DecimalValueConcat(a: string, b: string)
    requires AllDigits(a) && AllDigits(b)
    ensures AllDigits(a + b)
    ensures DecimalValue(a + b) == DecimalValue(a) * Pow10(|b|) + DecimalValue(b)
  {
    AllDigitsConcat(a, b);
    if b == [] {
      assert a + b == a;
    } else {
      var b' := b[..|b| - 1];
      assert (a + b)[..|a + b| - 1] == a + b';
      assert (a + b)[|a + b| - 1] == b[|b| - 1];
      DecimalValueConcat(a, b');
      var va, vb', d := DecimalValue(a), DecimalValue(b'), DigitValue(b[|b| - 1]);
      assert DecimalValue(a + b) == DecimalValue(a + b') * 10 + d;
      assert DecimalValue(b) == vb' * 10 + d;
      ShiftDigit(va, Pow10(|b'|), vb', d);
    }
  }

  /** The shortest decimal spelling of `n`: no leading zero except for zero itself. */
  function Decimal(n: nat): (r: string)
    ensures AllDigits(r) && 1 <= |r|
    ensures CanonicalDigits(r)
    ensures DecimalValue(r) == n
    ensures n < 100 ==> |r| <= 2
    ensures n < 1000 ==> |r| <= 3
  {
    if n < 10 then [DigitChar(n)]
    else
      var h := Decimal(n / 10);
      var r := h + [DigitChar(n % 10)];
      assert r[..|r| - 1] == h;
      r
  }

  /** A digit string with no redundant leading zero. */
  predicate CanonicalDigits(s: string) {
    AllDigits(s) && 1 <= |s| && (s[0] != '0' || |s| == 1)
  }

  lemma {:induction false} CanonicalValueBound(s: string)
    requires CanonicalDigits(s) && |s| >= 2
    ensures DecimalValue(s) >= 10
  {
    var p := s[..|s| - 1];
    if |p| >= 2 {
      CanonicalValueBound(p);
    } else {
      assert p[0] == s[0];
    }
  }

  /** Decimal is a bijection between naturals and canonical digit strings. */
  lemma {:induction false} DecimalOfValue(s: string)
    requires CanonicalDigits(s)
    ensures Decimal(DecimalValue(s)) == s
  {
    if |s| >= 2 {
      var p := s[..|s| - 1];
      var c := s[|s| - 1];
      assert s == p + [c];
      assert p[0] == s[0];
      assert CanonicalDigits(p);
      var n := DecimalValue(s);
      assert n == DecimalValue(p) * 10 + DigitValue(c);
      CanonicalValueBound(s);
      assert n / 10 == DecimalValue(p);
      assert n % 10 == DigitValue(c);
      DecimalOfValue(p);
      assert DigitChar(DigitValue(c)) == c;
      assert Decimal(n) == Decimal(n / 10) + [DigitChar(n % 10)];
    }
  }

  /** `n` written with exactly `width` digits, zero-padded on the left. */
  function Padded(n: nat, width: nat): (r: string)
    requires n < Pow10(width)
    ensures AllDigits(r) && |r| == width
    ensures DecimalValue(r) == n
  {
    if width == 0 then []
    else
      var h := Padded(n / 10, width - 1);
      var r := h + [DigitChar(n % 10)];
      assert r[..|r| - 1] == h;
      r
  }

  lemma {:induction false} PaddedOfValue(s: string)
    requires AllDigits(s)
    ensures Padded(DecimalValue(s), |s|) == s
  {
    if s != [] {
      var p := s[..|s| - 1];
      PaddedOfValue(p);
      var n := DecimalValue(s);
      assert n / 10 == DecimalValue(p);
      assert DigitChar(n % 10) == s[|s| - 1];
      assert s == p + [s[|s| - 1]];
    }
  }

  /** `Join(parts, c)` is `parts.join(c)`. */
  function Join(parts: seq<string>, c: char): string
    requires |parts| >= 1
  {
    if |parts| == 1 then parts[0] else parts[0] + [c] + Join(parts[1..], c)
  }

  /** `s.split(c)` for a one-character separator: the maximal pieces of `s`
      between occurrences of `c`, always at least one (`''.split('-')` is
      `['']`). */
  function Split(s: string, c: char): (r: seq<string>)
    ensures |r| == Count(s, c) + 1
    ensures forall i :: 0 <= i < |r| ==> c !in r[i]
    ensures forall i, x :: 0 <= i < |r| && x in r[i] ==> x in s
  {
    if s == [] then [[]]
    else
      var rest := Split(s[1..], c);
      if s[0] == c then
        assert [s[0]] + s[1..] == s;
        [[]] + rest
      else
        var r := [[s[0]] + rest[0]] + rest[1..];
        assert forall i :: 1 <= i < |r| ==> r[i] == rest[i];
        assert [s[0]] + s[1..] == s;
        r
  }

  /** Joining the pieces of a split with the separator gives back the input. */
  lemma {:induction false} JoinSplit(s: string, c: char)
    ensures Join(Split(s, c), c) == s
  {
    if s != [] {
      var rest := Split(s[1..], c);
      JoinSplit(s[1..], c);
      assert [s[0]] + s[1..] == s;
      if s[0] == c {
        JoinEmptyFirst(rest, c);
      } else {
        JoinExtendFirst(s[0], rest, c);
      }
    }
  }

  lemma JoinEmptyFirst(rest: seq<string>, c: char)
    requires |rest| >= 1
    ensures Join([[]] + rest, c) == [c] + Join(rest, c)
  {
    assert ([[]] + rest)[1..] == rest;
  }

  lemma JoinExtendFirst(x: char, rest: seq<string>, c: char)
    requires |rest| >= 1
    ensures Join([[x] + rest[0]] + rest[1..], c) == [x] + Join(rest, c)
  {
    var r := [[x] + rest[0]] + rest[1..];
    assert r[1..] == rest[1..];
  }

  /** The number of occurrences of `c` in `s`. */
  function Count(s: string, c: char): (n: nat)
    ensures n <= |s|
    ensures n == 0 <==> c !in s
  {
    if s == [] then 0 else (if s[0] == c then 1 else 0) + Count(s[1..], c)
  }

  lemma {:induction false} CountConcat(a: string, b: string, c: char)
    ensures Count(a + b, c) == Count(a, c) + Count(b, c)
  {
    if a == [] {
      assert a + b == b;
    } else {
      assert (a + b)[1..] == a[1..] + b;
      CountConcat(a[1..], b, c);
    }
  }

  /** Splitting at a first occurrence of the separator peels off the piece before it. */
  lemma {:induction false} SplitAtFirst(a: string, b: string, c: char)
    requires c !in a
    ensures Split(a + [c] + b, c) == [a] + Split(b, c)
  {
    if a == [] {
      assert a + [c] + b == [c] + b;
      assert ([c] + b)[1..] == b;
    } else {
      assert (a + [c] + b)[1..] == a[1..] + [c] + b;
      SplitAtFirst(a[1..], b, c);
      assert [a[0]] + a[1..] == a;
    }
  }

  lemma {:induction false} SplitNoSeparator(a: string, c: char)
    requires c !in a
    ensures Split(a, c) == [a]
  {
    if a != [] {
      SplitNoSeparator(a[1..], c);
      assert [a[0]] + a[1..] == a;
    }
  }

  /** Split inverts Join on pieces free of the separator. */
  lemma {:induction false} SplitJoin(parts: seq<string>, c: char)
    requires |parts| >= 1
    requires forall i :: 0 <= i < |parts| ==> c !in parts[i]
    ensures Split(Join(parts, c), c) == parts
  {
    if |parts| == 1 {
      SplitNoSeparator(parts[0], c);
    } else {
      SplitJoin(parts[1..], c);
      SplitAtFirst(parts[0], Join(parts[1..], c), c);
      assert parts == [parts[0]] + parts[1..];
    }
  }
}
